=== FILE: README.md ===
# gcloud-cache: a Dafny model of the memoising cache

`gcloud_cache/cache.py` memoises calls of a decorated function in a Google
Cloud Storage bucket. For every call it:

1. replaces each `bytes` argument by its Base64 text, with the two
   comprehensions at the start of `serialize_args_to_zip`. These are copies
   of the ones in `serialize_args`, which no call uses;
2. writes a ZIP archive into a fresh `io.BytesIO` stream. The archive holds
   `function_code.py` with the function's source, then `arg_<i>.txt` per
   positional argument, then `kwarg_<k>.txt` per named argument;
3. hashes the stream from its position to the end with MD5, then rewinds it
   (`get_hash_from_zip`);
4. looks up the object `cache/<digest>.zip`. On a hit it returns the stored
   bytes. On a miss it runs the function, uploads the rewound archive under
   that name and returns the function's result.

The model follows the code file by file:

- `basics.dfy`: bytes and `Option`.
- `base64.dfy`: the Base64 encoding of section 4 of RFC 4648, with a decoder.
  Decoding an encoding gives back the bytes, so the encoding is injective.
- `decimal.dfy`: decimal text of integers, used by `str(int)` and by the
  `arg_{i}` names. Reading the digits back gives the number, so the rendering
  is injective.
- `args.dfy`: argument values and the two normalising comprehensions.
- `streams.dfy`: `io.BytesIO` as a class with a byte sequence and a position.
- `archive.dfy`: the entry list, the entry names, the timestamps `writestr`
  adds, and `zipfile.ZipFile` as a class that collects members.
- `cache.dfy`: the object name, `serialize_args_to_zip`, `get_hash_from_zip`,
  the bucket as a class over a map, the hit/miss step `CallStep` as a pure
  function, and `sync_wrapper` as a method proved against `CallStep`.
- `cache_properties.dfy`: properties of `CallStep` across calls.

Parameters stand in for what the model does not open up:

- The ZIP container encoding and MD5 are the two functions of a `Library`
  value.
- The function's source text (`inspect.getsource`) is a string.
- The wall clock is `clock(k)`, the time read at the k-th `writestr`.
- The wrapped function is a total function returning `Returned(v)` or
  `Raised(e)`.

What the code does, as the model states it:

- Named arguments are archived in the mapping's iteration order, so passing
  two of them in the other order gives a different entry list
  (`CacheProperties.NamedOrderMatters`).
- Each `writestr` stamps its entry with the wall-clock time. The archive
  bytes, and so the object name, may depend on the clock readings. Equal
  readings give equal bytes and an equal name
  (`CacheProperties.SameEntriesSameKey`). The ZIP format stores a time as
  MS-DOS time, with the seconds rounded down to an even number. So readings
  that agree once the seconds are rounded down to even also give equal bytes.
  The model keeps whole seconds in `Stamp` and leaves the container encoding
  to `Library.zip`, which allows this.
- No result entry is ever written. A miss uploads the archive of the
  arguments alone, so the bucket stays content-addressed: each object sits
  under the name its own bytes hash to
  (`CacheProperties.CallKeepsContentAddressed`).
- A hit returns the raw stored archive, not a decoded result. When a call is
  repeated and every `writestr` of the second call reads the same clock time
  as the first, the second call is a hit. It then returns archive bytes, where
  the first call returned the function's value
  (`CacheProperties.RepeatCallServedFromCache`). When a reading differs even
  after the seconds are rounded down to even, the stored times differ. In
  general the archive bytes and the object name then differ too, and the
  function runs again. The decorator test in `tests/test_cache.py:116-129` expects the
  same value from both calls.
- The entry text does not record an argument's type. Under the same clock
  readings, the blob `00 01 02 03` and the string `"AAECAw=="` get the same
  object name, and so do `1` and `"1"` (`CacheProperties.TypeNotRecorded`).

## Model

| member | source | states |
|---|---|---|
| Base64.Encode | gcloud_cache/cache.py:16 | the Base64 text of n bytes has 4·⌈n/3⌉ characters |
| Base64.DecodeEncode | gcloud_cache/cache.py:16 | decoding the Base64 text of any byte string gives that byte string back |
| Base64.EncodeInjective | gcloud_cache/cache.py:55 | two different byte strings never have the same Base64 text |
| Decimal.NatText | gcloud_cache/cache.py:65 | the index in `arg_{i}` is rendered as at least one decimal digit, with no leading zero |
| Decimal.ValueOfNatText | gcloud_cache/cache.py:65 | reading the rendered digits back gives the number |
| Decimal.NatTextInjective | gcloud_cache/cache.py:65 | different indices have different decimal texts |
| Args.NormalizeValue | gcloud_cache/cache.py:16 | a normalised argument is never raw bytes |
| Args.NormalizeArgs | gcloud_cache/cache.py:16 | the positional list keeps its length and order; each `bytes` argument becomes its Base64 text, and every other argument is unchanged |
| Args.NormalizeNamed | gcloud_cache/cache.py:17 | the named arguments keep the same names in the same order; `bytes` values become Base64 text, and other values are unchanged |
| Args.SerializeArgs | gcloud_cache/cache.py:15-18 | returns as many positional arguments as it was given and the same names in the same order; no bytes remain; distinct names stay distinct |
| Args.NormalizeBytesInjective | gcloud_cache/cache.py:55 | two different blobs never normalise to the same value |
| Args.DifferentBytesDifferentArgs | gcloud_cache/cache.py:55 | argument lists that differ in the contents of one `bytes` argument normalise differently at that position |
| Archive.LayoutShape | gcloud_cache/cache.py:59-67 | the archive has 1 + #args + #kwargs entries: `function_code.py` with the source first, then `arg_<i>.txt` for each positional argument in order, then `kwarg_<k>.txt` for each named argument in iteration order |
| Archive.LayoutWithoutArguments | gcloud_cache/cache.py:59-67 | a call without arguments archives only `function_code.py` |
| Archive.ArgNameInjective | gcloud_cache/cache.py:65 | two positional indices never share an entry name |
| Archive.KwargNameInjective | gcloud_cache/cache.py:67 | two argument names never share an entry name |
| Archive.EntryNamesDistinct | gcloud_cache/cache.py:59-67 | when named arguments have distinct names, all entry names of the archive are distinct |
| Archive.DifferentBytesDifferentEntries | gcloud_cache/cache.py:64-65 | calls that differ only in the contents of one positional `bytes` argument archive different text for it, so their entry lists differ |
| Archive.DifferentNamedBytesDifferentEntries | gcloud_cache/cache.py:66-67 | calls that differ only in the contents of the `bytes` value under one argument name archive different text for that name, so their entry lists differ |
| Archive.Layout | gcloud_cache/cache.py:59-67 | from normalised arguments, the archive holds one entry per argument after the entry `function_code.py` with the source, which comes first |
| Archive.Entries | gcloud_cache/cache.py:54-67 | the entry list of a call has one entry for the source plus one per positional and per named argument |
| Archive.Str | gcloud_cache/cache.py:65 | `str` of a string is the string itself; the text of an integer is nonempty and starts with `-` exactly when the integer is negative |
| Decimal.IntText | gcloud_cache/cache.py:67 | `str` of an integer is a minus sign exactly for negative numbers, followed by decimal digits that denote the integer's absolute value |
| Decimal.IntTextInjective | gcloud_cache/cache.py:67 | different integers have different texts |
| Archive.ZipWriter.constructor | gcloud_cache/cache.py:59 | a new archive writer over a stream has no members |
| Archive.ZipWriter.WriteStr | gcloud_cache/cache.py:62-67 | `writestr` appends one member with its name, its text and the current time |
| Archive.ZipWriter.Close | gcloud_cache/cache.py:59 | closing writes the container bytes of all members into the stream at its position |
| Streams.ByteStream.constructor | gcloud_cache/cache.py:58 | a new stream is empty and positioned at 0 |
| Streams.ByteStream.Read | gcloud_cache/cache.py:74 | a read returns the bytes from the position to the end and moves the position to the end; the contents are unchanged |
| Streams.ByteStream.Seek | gcloud_cache/cache.py:69 | seeking sets the position and leaves the contents unchanged |
| Streams.ByteStream.Write | gcloud_cache/cache.py:59 | a nonempty write overwrites from the position on, fills any gap past the end with zero bytes and advances the position past the written bytes; an empty write changes nothing |
| Cache.CacheKey | gcloud_cache/cache.py:80 | the object name is 10 characters longer than the digest, and the digest can be read back from between `cache/` and `.zip` |
| Cache.CacheKeyInjective | gcloud_cache/cache.py:80 | different digests never share an object name `cache/<digest>.zip` |
| Cache.WriteArgEntries | gcloud_cache/cache.py:64-65 | the loop over positional arguments appends exactly the stamped `arg_<i>.txt` members of the layout, in order |
| Cache.WriteKwargEntries | gcloud_cache/cache.py:66-67 | the loop over named arguments appends the stamped `kwarg_<k>.txt` members in iteration order, completing the layout |
| Cache.SerializeArgsToZip | gcloud_cache/cache.py:54-70 | the result is a fresh stream at position 0 that holds the container bytes of the stamped entry list of the call |
| Cache.GetHashFromZip | gcloud_cache/cache.py:72-76 | the digest is the MD5 of exactly the bytes from the position to the end; the contents are unchanged and the position ends at 0 |
| Cache.CacheStore.constructor | gcloud_cache/cache.py:37 | the bucket starts with the objects it already holds |
| Cache.CacheStore.GetCachedResponse | gcloud_cache/cache.py:78-83 | returns the stored bytes exactly when `cache/<digest>.zip` exists, otherwise None |
| Cache.CacheStore.SaveToCache | gcloud_cache/cache.py:85-89 | stores the stream's remaining bytes under `cache/<digest>.zip`, the same name the lookup uses; every other object is unchanged |
| Cache.CachedFunction.constructor | gcloud_cache/cache.py:91-92 | decorating binds the function, the bucket, and the text `inspect.getsource` gives for the function (taken to be the same on every call); nothing has run yet |
| Cache.CallStep | gcloud_cache/cache.py:104-114 | one call of `sync_wrapper` against the bucket never replaces an object the bucket already holds; the function runs exactly when the response does not come from the bucket |
| Cache.CachedFunction.Call | gcloud_cache/cache.py:104-114 | a call changes the bucket and returns a response exactly as `CallStep` says; the function runs once on a miss and not at all on a hit |
| CacheProperties.HitIffPresent | gcloud_cache/cache.py:106-111 | a call is served from the bucket if and only if its object name is present; a hit returns the stored bytes, runs nothing and leaves the bucket unchanged |
| CacheProperties.MissStoresHashedArchive | gcloud_cache/cache.py:112-114 | on a miss where the function returns, the caller gets the function's result unchanged; the bucket then holds, under the call's name, exactly the bytes that were hashed, because the stream was rewound |
| CacheProperties.NothingElseChanges | gcloud_cache/cache.py:106-114 | a call never removes an object and changes no object name but its own; if the function raises, the bucket is unchanged |
| CacheProperties.CallKeepsContentAddressed | gcloud_cache/cache.py:106-114 | if every object sits under the name its bytes hash to, this still holds after any call |
| CacheProperties.HitDigestMatches | gcloud_cache/cache.py:107-111 | in a content-addressed bucket, a hit returns an archive with the same MD5 as the current call's archive |
| CacheProperties.StampedSameReadings | gcloud_cache/cache.py:62-67 | the stamped members depend on the clock only through the readings actually taken |
| CacheProperties.SameEntriesSameKey | gcloud_cache/cache.py:54-76 | the same entry list with the same clock readings gives the same archive bytes and the same object name |
| CacheProperties.RepeatCallServedFromCache | gcloud_cache/cache.py:106-114 | repeating, with the same clock readings, a call of a function that returned does not run the function and leaves the bucket unchanged; after a miss it returns the stored archive of the arguments |
| CacheProperties.NamedOrderMatters | gcloud_cache/cache.py:66-67 | two named arguments passed in the other order give a different entry list |
| CacheProperties.BlobTexts | gcloud_cache/cache.py:16 | the blobs `00 01 02 03` and `03 02 01 00` encode as `AAECAw==` and `AwIBAA==` |
| CacheProperties.TestBlobsDiffer | gcloud_cache/cache.py:64-65 | passed as the single positional argument, the blobs `00 01 02 03` and `03 02 01 00` (the two blobs of the hash test in `tests/test_cache.py:59-70`) give different entry lists |
| CacheProperties.TypeNotRecorded | gcloud_cache/cache.py:65 | with the same clock readings, the blob `00 01 02 03` and the string `AAECAw==` get the same object name, and so do the integer 1 and the string `"1"` |

## Left out

- Loading the bucket name and credentials from `local/cloud_storage.yaml`, setting the environment variable and building `storage.Client()` (`gcloud_cache/cache.py:20-37`): file I/O and global client setup.
- `create_bucket` and `ensure_bucket_exists` (`gcloud_cache/cache.py:39-52`): remote provisioning and its `NotFound`/`Forbidden` handling.
- The Cloud Storage calls `exists`, `download_as_bytes` and `upload_from_file`, and the `application/zip` content type. The bucket is an in-memory map, and network or permission errors are not modelled.
- The ZIP container byte format and MD5: these are library routines, passed in as the functions of `Library`. Nothing is claimed about their bytes, so no byte-level determinism is claimed either.
- `inspect.getsource` (`gcloud_cache/cache.py:61`): the code calls it inside every call, by way of `gcloud_cache/cache.py:106`. The model takes its result as a string fixed at decoration time. A source file edited between calls, and the `OSError` the call can raise, are not modelled.
- Concurrent use of the bucket: `Cache.CachedFunction.Call` and `Cache.CallStep` treat a call as one atomic step against the bucket. The code makes separate remote calls: `exists` and `download_as_bytes` (`gcloud_cache/cache.py:81-82`), then `upload_from_file` (`gcloud_cache/cache.py:88`). Other processes may change the bucket between them, and that interleaving is not modelled.
- Args.Value and Archive.Str cannot hold a Python `str` with a lone surrogate, such as `os.fsdecode(b'\xff')`. A Dafny `char` is a Unicode scalar value. Such a string, as a positional value, a named value or a named-argument key, makes `writestr` at `gcloud_cache/cache.py:62-67` raise `UnicodeEncodeError` when it encodes the text or the entry name as UTF-8. The call then fails inside `serialize_args_to_zip`, before the bucket is read. The model cannot express this input.
- Decimal.IntText and Archive.Str render every integer. CPython's `str` at `gcloud_cache/cache.py:65` and `67` raises `ValueError` for an `int` with more than 4300 digits, the default of `sys.get_int_max_str_digits()`. Such a call then fails inside `serialize_args_to_zip`, before the bucket is read or written. The model has no such limit, and `CallStep` goes on to look up and store.
- Archive.ZipWriter.WriteStr accepts any `Stamp`. `writestr` with a plain name raises `ValueError` when the clock reads a time before 1980, since ZIP cannot record it. The call then fails inside `serialize_args_to_zip`, before the bucket is read or written. The model archives such readings normally.
- `str` of values other than `str` and `int`: these values carry their text in `Other(shown)`. Python's `str` of floats, bools and containers is not modelled.
- `async_wrapper` and the choice between the two wrappers (`gcloud_cache/cache.py:93-102`, `116`): the hit/miss logic is the same as in `sync_wrapper`, which is modelled once; awaiting is runtime concurrency.
- Side effects of the wrapped function other than its result or exception: the function is a total mathematical function. `CachedFunction.calls` records when it runs.
- The `print` logging throughout.
- `gcloud_cache/example.py`: a demonstration with sleeps and printing.
- `deterministic_writestr`, which `tests/test_cache.py:6` imports: `gcloud_cache/cache.py` does not define it, so it is not part of this model.

=== FILE: archive.dfy ===
/**
 * The archive that `serialize_args_to_zip` builds, as an ordered list of
 * named text entries: `function_code.py` with the function's source, then
 * `arg_<i>.txt` per positional argument in order, then `kwarg_<k>.txt` per
 * named argument in the mapping's iteration order (not sorted). Every
 * `writestr` with a plain name stamps the entry with the wall-clock time,
 * so the archive bytes depend on the entry list AND the clock readings.
 */
module Archive {
  import opened Basics
  import opened Args
  import Decimal
  import Streams

  datatype Entry = Entry(name: string, text: string)

  /** A ZIP modification time (year, month, day, hour, minute, second). */
  datatype Stamp = Stamp(year: int, month: int, day: int, hour: int, minute: int, second: int)

  /** An archive member: an entry with the time it was stamped with. */
  datatype Member = Member(entry: Entry, stamp: Stamp)

  const FunctionCodeName: string := "function_code.py"

  function ArgName(i: nat): (name: string)
  {
    "arg_" + Decimal.NatText(i) + ".txt"
  }

  function KwargName(k: string): (name: string)
  {
    "kwarg_" + k + ".txt"
  }

  /**
   * `str(v)` for an argument that has already been normalised: a string is
   * its own text, and an integer's text starts with a minus sign exactly
   * when it is negative.
   */
  function Str(v: Value): (text: string)
    requires !v.Bytes?
    ensures v.Text? ==> text == v.s
    ensures v.Int? ==> |text| >= 1 && (text[0] == '-' <==> v.n < 0)
  {
    match v
    case Text(s) => s
    case Int(n) => Decimal.IntText(n)
    case Other(shown) => shown
  }

  /** The entries the three writing steps produce, from normalised arguments. */
  function Layout(source: string, args: seq<Value>, kwargs: Named): (es: seq<Entry>)
    requires TextOnly(args) && NamedTextOnly(kwargs)
    ensures |es| == 1 + |args| + |kwargs|
    ensures es[0] == Entry(FunctionCodeName, source)
  {
    [Entry(FunctionCodeName, source)]
    + seq(|args|, i requires 0 <= i < |args| => Entry(ArgName(i), Str(args[i])))
    + seq(|kwargs|, j requires 0 <= j < |kwargs| => Entry(KwargName(kwargs[j].0), Str(kwargs[j].1)))
  }

  /** The entry list of a call: normalise, then lay out. */
  function Entries(source: string, args: seq<Value>, kwargs: Named): (es: seq<Entry>)
    ensures |es| == 1 + |args| + |kwargs|
  {
    Layout(source, NormalizeArgs(args), NormalizeNamed(kwargs))
  }

  /** Each entry stamped with the clock reading taken when it was written. */
  function Stamped(entries: seq<Entry>, clock: nat -> Stamp): (ms: seq<Member>)
  {
    seq(|entries|, k requires 0 <= k < |entries| => Member(entries[k], clock(k)))
  }

  /** The clock gives the same readings for the first `n` writes. */
  predicate SameReadings(clock1: nat -> Stamp, clock2: nat -> Stamp, n: nat)
  {
    forall k :: 0 <= k < n ==> clock1(k) == clock2(k)
  }

  /** The entry written for the positional argument at index `i`. */
  lemma LayoutArgAt(source: string, args: seq<Value>, kwargs: Named, i: nat)
    requires TextOnly(args) && NamedTextOnly(kwargs) && i < |args|
    ensures |Layout(source, args, kwargs)| == 1 + |args| + |kwargs|
    ensures Layout(source, args, kwargs)[1 + i] == Entry(ArgName(i), Str(args[i]))
  {
  }

  /** The entry written for the named argument at iteration position `j`. */
  lemma LayoutKwargAt(source: string, args: seq<Value>, kwargs: Named, j: nat)
    requires TextOnly(args) && NamedTextOnly(kwargs) && j < |kwargs|
    ensures |Layout(source, args, kwargs)| == 1 + |args| + |kwargs|
    ensures Layout(source, args, kwargs)[1 + |args| + j] == Entry(KwargName(kwargs[j].0), Str(kwargs[j].1))
  {
  }

  /** The first member written is the function's source. */
  lemma LayoutFirst(source: string, args: seq<Value>, kwargs: Named, clock: nat -> Stamp)
    requires TextOnly(args) && NamedTextOnly(kwargs)
    ensures Stamped(Layout(source, args, kwargs), clock)[..1] == [Member(Entry(FunctionCodeName, source), clock(0))]
  {
  }

  /** A prefix one element longer. */
  lemma TakeOneMore<T>(s: seq<T>, n: nat)
    requires n < |s|
    ensures s[..n + 1] == s[..n] + [s[n]]
  {
  }

  /** The entry of a call for its positional argument `i`. */
  lemma EntryOfArg(source: string, args: seq<Value>, kwargs: Named, i: nat)
    requires i < |args|
    ensures |Entries(source, args, kwargs)| == 1 + |args| + |kwargs|
    ensures Entries(source, args, kwargs)[1 + i] == Entry(ArgName(i), Str(NormalizeValue(args[i])))
  {
    NormalizeArgsAt(args, i);
    LayoutArgAt(source, NormalizeArgs(args), NormalizeNamed(kwargs), i);
  }

  /** The entry of a call for its named argument at iteration position `j`. */
  lemma EntryOfKwarg(source: string, args: seq<Value>, kwargs: Named, j: nat)
    requires j < |kwargs|
    ensures |Entries(source, args, kwargs)| == 1 + |args| + |kwargs|
    ensures Entries(source, args, kwargs)[1 + |args| + j] == Entry(KwargName(kwargs[j].0), Str(NormalizeValue(kwargs[j].1)))
  {
    NormalizeNamedAt(kwargs, j);
    LayoutKwargAt(source, NormalizeArgs(args), NormalizeNamed(kwargs), j);
  }

  /**
   * The layout of an archive: the source first, the positional arguments in
   * order, the named arguments in iteration order, nothing else.
   */
  lemma LayoutShape(source: string, args: seq<Value>, kwargs: Named)
    ensures var es := Entries(source, args, kwargs);
      && |es| == 1 + |args| + |kwargs|
      && es[0] == Entry("function_code.py", source)
      && (forall i :: 0 <= i < |args| ==>
            es[1 + i] == Entry(ArgName(i), Str(NormalizeValue(args[i]))))
      && (forall j :: 0 <= j < |kwargs| ==>
            es[1 + |args| + j] == Entry(KwargName(kwargs[j].0), Str(NormalizeValue(kwargs[j].1))))
  {
    forall i | 0 <= i < |args|
      ensures Entries(source, args, kwargs)[1 + i] == Entry(ArgName(i), Str(NormalizeValue(args[i])))
    {
      EntryOfArg(source, args, kwargs, i);
    }
    forall j | 0 <= j < |kwargs|
      ensures Entries(source, args, kwargs)[1 + |args| + j] == Entry(KwargName(kwargs[j].0), Str(NormalizeValue(kwargs[j].1)))
    {
      EntryOfKwarg(source, args, kwargs, j);
    }
  }

  /** A call without arguments archives only the function's source. */
  lemma LayoutWithoutArguments(source: string)
    ensures Entries(source, [], []) == [Entry("function_code.py", source)]
  {
  }

  /** Stripping a fixed prefix and suffix recovers the middle. */
  lemma AffixCancel(pre: string, x: string, y: string, suf: string)
    requires pre + x + suf == pre + y + suf
    ensures x == y
  {
    var s := pre + x + suf;
    assert |x| == |y|;
    assert x == s[|pre|..|pre| + |x|];
    assert y == (pre + y + suf)[|pre|..|pre| + |y|];
  }

  lemma ArgNameInjective(i: nat, j: nat)
    requires ArgName(i) == ArgName(j)
    ensures i == j
  {
    AffixCancel("arg_", Decimal.NatText(i), Decimal.NatText(j), ".txt");
    Decimal.NatTextInjective(i, j);
  }

  lemma KwargNameInjective(k1: string, k2: string)
    requires KwargName(k1) == KwargName(k2)
    ensures k1 == k2
  {
    AffixCancel("kwarg_", k1, k2, ".txt");
  }

  lemma FirstChars(i: nat, k: string)
    ensures FunctionCodeName[0] == 'f' && ArgName(i)[0] == 'a' && KwargName(k)[0] == 'k'
  {
  }

  /** The name of the entry at position `p` of a call's archive. */
  function NameAt(args: seq<Value>, kwargs: Named, p: nat): (name: string)
    requires p < 1 + |args| + |kwargs|
  {
    if p == 0 then FunctionCodeName
    else if p <= |args| then ArgName(p - 1)
    else KwargName(kwargs[p - 1 - |args|].0)
  }

  lemma EntryNameAt(source: string, args: seq<Value>, kwargs: Named, p: nat)
    requires p < 1 + |args| + |kwargs|
    ensures |Entries(source, args, kwargs)| == 1 + |args| + |kwargs|
    ensures Entries(source, args, kwargs)[p].name == NameAt(args, kwargs, p)
  {
    if p == 0 {
    } else if p <= |args| {
      EntryOfArg(source, args, kwargs, p - 1);
    } else {
      EntryOfKwarg(source, args, kwargs, p - 1 - |args|);
    }
  }

  /** Names at two different positions differ. */
  lemma NamesAtDiffer(args: seq<Value>, kwargs: Named, p: nat, q: nat)
    requires DistinctNames(kwargs)
    requires p < q < 1 + |args| + |kwargs|
    ensures NameAt(args, kwargs, p) != NameAt(args, kwargs, q)
  {
    var n := |args|;
    if p == 0 {
      FirstChars(q - 1, if q > n then kwargs[q - 1 - n].0 else "");
    } else if q <= n {
      if ArgName(p - 1) == ArgName(q - 1) {
        ArgNameInjective(p - 1, q - 1);
      }
    } else if p <= n {
      FirstChars(p - 1, kwargs[q - 1 - n].0);
    } else {
      if KwargName(kwargs[p - 1 - n].0) == KwargName(kwargs[q - 1 - n].0) {
        KwargNameInjective(kwargs[p - 1 - n].0, kwargs[q - 1 - n].0);
      }
    }
  }

  /**
   * Every entry of an archive has its own name: the source, each positional
   * index and each named argument land in different entries.
   */
  lemma EntryNamesDistinct(source: string, args: seq<Value>, kwargs: Named)
    requires DistinctNames(kwargs)
    ensures var es := Entries(source, args, kwargs);
      forall p, q :: 0 <= p < q < |es| ==> es[p].name != es[q].name
  {
    var es := Entries(source, args, kwargs);
    EntryNameAt(source, args, kwargs, 0);
    forall p, q | 0 <= p < q < |es|
      ensures es[p].name != es[q].name
    {
      EntryNameAt(source, args, kwargs, p);
      EntryNameAt(source, args, kwargs, q);
      NamesAtDiffer(args, kwargs, p, q);
    }
  }

  /**
   * Two calls whose positional arguments differ only in the contents of one
   * `bytes` argument archive different text for that argument.
   */
  lemma DifferentBytesDifferentEntries(source: string, args1: seq<Value>, args2: seq<Value>, kwargs: Named, i: nat)
    requires |args1| == |args2| && i < |args1|
    requires forall k :: 0 <= k < |args1| && k != i ==> args1[k] == args2[k]
    requires args1[i].Bytes? && args2[i].Bytes? && args1[i].data != args2[i].data
    ensures Entries(source, args1, kwargs)[1 + i].text != Entries(source, args2, kwargs)[1 + i].text
    ensures Entries(source, args1, kwargs) != Entries(source, args2, kwargs)
  {
    LayoutShape(source, args1, kwargs);
    LayoutShape(source, args2, kwargs);
    DifferentBytesDifferentArgs(args1, args2, i);
  }

  /**
   * Two calls whose named arguments differ only in the contents of the
   * `bytes` value under one name archive different text for that name.
   */
  lemma DifferentNamedBytesDifferentEntries(source: string, args: seq<Value>, kwargs1: Named, kwargs2: Named, j: nat)
    requires |kwargs1| == |kwargs2| && j < |kwargs1|
    requires forall k :: 0 <= k < |kwargs1| && k != j ==> kwargs1[k] == kwargs2[k]
    requires kwargs1[j].0 == kwargs2[j].0
    requires kwargs1[j].1.Bytes? && kwargs2[j].1.Bytes? && kwargs1[j].1.data != kwargs2[j].1.data
    ensures Entries(source, args, kwargs1)[1 + |args| + j].text != Entries(source, args, kwargs2)[1 + |args| + j].text
    ensures Entries(source, args, kwargs1) != Entries(source, args, kwargs2)
  {
    EntryOfKwarg(source, args, kwargs1, j);
    EntryOfKwarg(source, args, kwargs2, j);
    var v1, v2 := NormalizeValue(kwargs1[j].1), NormalizeValue(kwargs2[j].1);
    if Str(v1) == Str(v2) {
      assert v1 == v2;
      NormalizeBytesInjective(kwargs1[j].1.data, kwargs2[j].1.data);
    }
  }

  /**
   * `zipfile.ZipFile(stream, 'w')`: collects the members written so far and,
   * when closed, writes the archive bytes into its stream.
   */
  class ZipWriter {
    var members: seq<Member>
    const stream: Streams.ByteStream

    constructor (stream: Streams.ByteStream)
      ensures this.stream == stream && members == []
    {
      this.stream := stream;
      members := [];
    }

    /** `writestr(name, text)`, stamped with the clock reading `now`. */
    method WriteStr(name: string, text: string, now: Stamp)
      modifies this`members
      ensures members == old(members) + [Member(Entry(name, text), now)]
    {
      members := members + [Member(Entry(name, text), now)];
    }

    /** Leaving the `with` block: the container bytes `zip(members)` go into the stream. */
    method Close(zip: seq<Member> -> seq<byte>)
      modifies stream
      ensures stream.data == Streams.Overwrite(old(stream.data), old(stream.pos), zip(members))
      ensures stream.pos == old(stream.pos) + |zip(members)|
    {
      stream.Write(zip(members));
    }
  }
}

=== FILE: args.dfy ===
/**
 * Call arguments and their normalisation before archiving
 * (`serialize_args`, and the same two comprehensions at the top of
 * `serialize_args_to_zip`): every `bytes` argument is replaced by its
 * Base64 text, every other argument is kept as it is.
 */
module Args {
  import opened Basics
  import Base64

  /**
   * A Python argument value. `Other` stands for any value that is neither
   * `bytes`, `str` nor `int` (a float, a bool, a list ...), carried with
   * the text `str` gives it.
   */
  datatype Value =
    | Bytes(data: seq<byte>)
    | Text(s: string)
    | Int(n: int)
    | Other(shown: string)

  /** Named arguments, in the mapping's iteration order. */
  type Named = seq<(string, Value)>

  /** The names of named arguments, in iteration order. */
  function Names(kwargs: Named): (ks: seq<string>)
  {
    seq(|kwargs|, j requires 0 <= j < |kwargs| => kwargs[j].0)
  }

  /** No two named arguments share a name, as in a Python dict. */
  predicate DistinctNames(kwargs: Named)
  {
    forall i, j :: 0 <= i < j < |kwargs| ==> kwargs[i].0 != kwargs[j].0
  }

  /** Holds when no value is left as raw bytes. */
  predicate TextOnly(args: seq<Value>)
  {
    forall i :: 0 <= i < |args| ==> !args[i].Bytes?
  }

  predicate NamedTextOnly(kwargs: Named)
  {
    forall j :: 0 <= j < |kwargs| ==> !kwargs[j].1.Bytes?
  }

  /** One argument: `bytes` become their Base64 text, anything else stays. */
  function NormalizeValue(v: Value): (r: Value)
    ensures !r.Bytes?
  {
    match v
    case Bytes(data) => Text(Base64.Encode(data))
    case _ => v
  }

  /** The positional comprehension. */
  function NormalizeArgs(args: seq<Value>): (r: seq<Value>)
    ensures |r| == |args|
    ensures forall i :: 0 <= i < |args| && args[i].Bytes? ==> r[i] == Text(Base64.Encode(args[i].data))
    ensures forall i :: 0 <= i < |args| && !args[i].Bytes? ==> r[i] == args[i]
    ensures TextOnly(r)
    decreases |args|
  {
    if args == [] then [] else [NormalizeValue(args[0])] + NormalizeArgs(args[1..])
  }

  /** The named comprehension: same names in the same order, values normalised. */
  function NormalizeNamed(kwargs: Named): (r: Named)
    ensures |r| == |kwargs|
    ensures forall j :: 0 <= j < |kwargs| ==> r[j].0 == kwargs[j].0
    ensures forall j :: 0 <= j < |kwargs| && kwargs[j].1.Bytes? ==> r[j].1 == Text(Base64.Encode(kwargs[j].1.data))
    ensures forall j :: 0 <= j < |kwargs| && !kwargs[j].1.Bytes? ==> r[j].1 == kwargs[j].1
    ensures NamedTextOnly(r)
    decreases |kwargs|
  {
    if kwargs == [] then []
    else [(kwargs[0].0, NormalizeValue(kwargs[0].1))] + NormalizeNamed(kwargs[1..])
  }

  lemma NormalizeArgsAt(args: seq<Value>, i: nat)
    requires i < |args|
    ensures |NormalizeArgs(args)| == |args| && NormalizeArgs(args)[i] == NormalizeValue(args[i])
  {
  }

  lemma NormalizeNamedAt(kwargs: Named, j: nat)
    requires j < |kwargs|
    ensures |NormalizeNamed(kwargs)| == |kwargs|
    ensures NormalizeNamed(kwargs)[j] == (kwargs[j].0, NormalizeValue(kwargs[j].1))
  {
  }

  /** `serialize_args`: both comprehensions, returned as a pair. */
  function SerializeArgs(args: seq<Value>, kwargs: Named): (r: (seq<Value>, Named))
    ensures |r.0| == |args| && TextOnly(r.0)
    ensures Names(r.1) == Names(kwargs) && NamedTextOnly(r.1)
    ensures DistinctNames(kwargs) ==> DistinctNames(r.1)
  {
    (NormalizeArgs(args), NormalizeNamed(kwargs))
  }

  /** Normalisation of `bytes` loses nothing: different blobs give different texts. */
  lemma NormalizeBytesInjective(a: seq<byte>, b: seq<byte>)
    requires NormalizeValue(Bytes(a)) == NormalizeValue(Bytes(b))
    ensures a == b
  {
    Base64.EncodeInjective(a, b);
  }

  /**
   * Two positional lists that differ only at position `i`, where both hold
   * `bytes` with different contents, normalise to different lists.
   */
  lemma DifferentBytesDifferentArgs(args1: seq<Value>, args2: seq<Value>, i: nat)
    requires |args1| == |args2| && i < |args1|
    requires forall k :: 0 <= k < |args1| && k != i ==> args1[k] == args2[k]
    requires args1[i].Bytes? && args2[i].Bytes? && args1[i].data != args2[i].data
    ensures NormalizeArgs(args1)[i] != NormalizeArgs(args2)[i]
  {
    if NormalizeArgs(args1)[i] == NormalizeArgs(args2)[i] {
      NormalizeBytesInjective(args1[i].data, args2[i].data);
    }
  }
}

=== FILE: base64.dfy ===
/**
 * The Base64 encoding of section 4 of RFC 4648 (standard alphabet, `=`
 * padding), as `base64.b64encode(b).decode('utf-8')` produces it.
 * The decoder is the partner that shows the encoding loses nothing:
 * decoding an encoding gives the bytes back, so two different byte
 * strings never share a text.
 */
module Base64 {
  import opened Basics

  /** The character for a 6-bit group: `A`-`Z`, `a`-`z`, `0`-`9`, `+`, `/`. */
  function Char(i: nat): (c: char)
    requires i < 64
  {
    if i < 26 then ('A' as int + i) as char
    else if i < 52 then ('a' as int + (i - 26)) as char
    else if i < 62 then ('0' as int + (i - 52)) as char
    else if i == 62 then '+'
    else '/'
  }

  /** The 6-bit group a character stands for, if it belongs to the alphabet. */
  function Index(c: char): (r: Option<nat>)
    ensures r.Some? ==> r.value < 64 && Char(r.value) == c
  {
    if 'A' <= c <= 'Z' then Some(c as int - 'A' as int)
    else if 'a' <= c <= 'z' then Some(c as int - 'a' as int + 26)
    else if '0' <= c <= '9' then Some(c as int - '0' as int + 52)
    else if c == '+' then Some(62)
    else if c == '/' then Some(63)
    else None
  }

  lemma IndexOfChar(i: nat)
    requires i < 64
    ensures Index(Char(i)) == Some(i)
  {
  }

  /** Three bytes become four characters. */
  function Quad(x: byte, y: byte, z: byte): (s: string)
  {
    [Char(x / 4), Char(x % 4 * 16 + y / 16), Char(y % 16 * 4 + z / 64), Char(z % 64)]
  }

  /** The encoded text: whole groups of three bytes first, then a padded tail. */
  function Encode(b: seq<byte>): (s: string)
    ensures |s| == (|b| + 2) / 3 * 4
    decreases |b|
  {
    if |b| == 0 then []
    else if |b| == 1 then [Char(b[0] / 4), Char(b[0] % 4 * 16), '=', '=']
    else if |b| == 2 then [Char(b[0] / 4), Char(b[0] % 4 * 16 + b[1] / 16), Char(b[1] % 16 * 4), '=']
    else Quad(b[0], b[1], b[2]) + Encode(b[3..])
  }

  /**
   * Decodes one group of four characters. Padding is accepted only in the
   * last group of the text.
   */
  function DecodeQuad(q: string, last: bool): (r: Option<seq<byte>>)
    requires |q| == 4
    ensures r.Some? ==> 1 <= |r.value| <= 3 && (!last ==> |r.value| == 3)
  {
    var a, b, c, d := Index(q[0]), Index(q[1]), Index(q[2]), Index(q[3]);
    if a.None? || b.None? then None
    else if last && q[2] == '=' && q[3] == '=' then
      Some([a.value * 4 + b.value / 16])
    else if c.None? then None
    else if last && q[3] == '=' then
      Some([a.value * 4 + b.value / 16, b.value % 16 * 16 + c.value / 4])
    else if d.None? then None
    else
      Some([a.value * 4 + b.value / 16, b.value % 16 * 16 + c.value / 4, c.value % 4 * 64 + d.value])
  }

  /** The bytes a Base64 text stands for, or None when the text is not Base64. */
  function Decode(s: string): (r: Option<seq<byte>>)
    decreases |s|
  {
    if |s| == 0 then Some([])
    else if |s| < 4 then None
    else
      match DecodeQuad(s[..4], |s| == 4)
      case None => None
      case Some(head) =>
        match Decode(s[4..])
        case None => None
        case Some(tail) => Some(head + tail)
  }

  /** The 6-bit groups of three bytes reassemble into those bytes. */
  lemma GroupsReassemble(x: byte, y: byte, z: byte)
    ensures (x / 4) * 4 + (x % 4 * 16 + y / 16) / 16 == x
    ensures (x % 4 * 16 + y / 16) % 16 * 16 + (y % 16 * 4 + z / 64) / 4 == y
    ensures (y % 16 * 4 + z / 64) % 4 * 64 + z % 64 == z
  {
    var p, q, r := x % 4, y / 16, y % 16;
    assert (p * 16 + q) / 16 == p && (p * 16 + q) % 16 == q;
    var t := z / 64;
    assert (r * 4 + t) / 4 == r && (r * 4 + t) % 4 == t;
  }

  lemma {:induction false} QuadRoundTrip(x: byte, y: byte, z: byte, last: bool)
    ensures DecodeQuad(Quad(x, y, z), last) == Some([x, y, z])
  {
    var a, b, c, d := x / 4, x % 4 * 16 + y / 16, y % 16 * 4 + z / 64, z % 64;
    var q := Quad(x, y, z);
    IndexOfChar(a);
    IndexOfChar(b);
    IndexOfChar(c);
    IndexOfChar(d);
    assert Index(q[0]) == Some(a) && Index(q[1]) == Some(b);
    assert Index(q[2]) == Some(c) && Index(q[3]) == Some(d);
    assert q[3] != '=';
    GroupsReassemble(x, y, z);
  }

  lemma SingleQuad(x: byte)
    ensures DecodeQuad([Char(x / 4), Char(x % 4 * 16), '=', '='], true) == Some([x])
  {
    var a, b := x / 4, x % 4 * 16;
    var q := [Char(a), Char(b), '=', '='];
    IndexOfChar(a);
    IndexOfChar(b);
    assert Index(q[0]) == Some(a) && Index(q[1]) == Some(b);
    GroupsReassemble(x, 0, 0);
  }

  lemma PairQuad(x: byte, y: byte)
    ensures DecodeQuad([Char(x / 4), Char(x % 4 * 16 + y / 16), Char(y % 16 * 4), '='], true) == Some([x, y])
  {
    var a, b, c := x / 4, x % 4 * 16 + y / 16, y % 16 * 4;
    var q := [Char(a), Char(b), Char(c), '='];
    IndexOfChar(a);
    IndexOfChar(b);
    IndexOfChar(c);
    assert Index(q[0]) == Some(a) && Index(q[1]) == Some(b) && Index(q[2]) == Some(c);
    assert q[2] != '=';
    GroupsReassemble(x, y, 0);
  }

  /** Decoding a text splits at its first group of four characters. */
  lemma DecodeFirstGroup(q: string, rest: string, head: seq<byte>, tail: seq<byte>)
    requires |q| == 4
    requires DecodeQuad(q, rest == []) == Some(head)
    requires Decode(rest) == Some(tail)
    ensures Decode(q + rest) == Some(head + tail)
  {
    var s := q + rest;
    assert s[..4] == q && s[4..] == rest;
  }

  lemma OneByteRoundTrip(b: seq<byte>)
    requires |b| == 1
    ensures Decode(Encode(b)) == Some(b)
  {
    var x := b[0];
    var q := [Char(x / 4), Char(x % 4 * 16), '=', '='];
    SingleQuad(x);
    DecodeFirstGroup(q, [], [x], []);
    assert q + [] == Encode(b);
    assert [x] + [] == b;
  }

  lemma TwoBytesRoundTrip(b: seq<byte>)
    requires |b| == 2
    ensures Decode(Encode(b)) == Some(b)
  {
    var x, y := b[0], b[1];
    var q := [Char(x / 4), Char(x % 4 * 16 + y / 16), Char(y % 16 * 4), '='];
    PairQuad(x, y);
    DecodeFirstGroup(q, [], [x, y], []);
    assert q + [] == Encode(b);
    assert [x, y] + [] == b;
  }

  /** The encoding of three or more bytes starts with the group of the first three. */
  lemma EncodeFirstGroup(b: seq<byte>)
    requires |b| >= 3
    ensures Encode(b) == Quad(b[0], b[1], b[2]) + Encode(b[3..])
  {
  }

  lemma SplitAfterThree(b: seq<byte>)
    requires |b| >= 3
    ensures [b[0], b[1], b[2]] + b[3..] == b
  {
  }

  /** A whole group in front of an encoding that decodes decodes as well. */
  lemma GroupRoundTrip(b: seq<byte>)
    requires |b| >= 3
    requires Decode(Encode(b[3..])) == Some(b[3..])
    ensures Decode(Encode(b)) == Some(b)
  {
    var head, rest := [b[0], b[1], b[2]], Encode(b[3..]);
    var q := Quad(b[0], b[1], b[2]);
    QuadRoundTrip(b[0], b[1], b[2], rest == []);
    DecodeFirstGroup(q, rest, head, b[3..]);
    EncodeFirstGroup(b);
    SplitAfterThree(b);
  }

  /** Decoding undoes encoding, for every byte string. */
  lemma {:induction false} DecodeEncode(b: seq<byte>)
    ensures Decode(Encode(b)) == Some(b)
    decreases |b|
  {
    if |b| == 1 {
      OneByteRoundTrip(b);
    } else if |b| == 2 {
      TwoBytesRoundTrip(b);
    } else if |b| >= 3 {
      DecodeEncode(b[3..]);
      GroupRoundTrip(b);
    }
  }

  /** Two different byte strings never have the same Base64 text. */
  lemma EncodeInjective(a: seq<byte>, b: seq<byte>)
    requires Encode(a) == Encode(b)
    ensures a == b
  {
    DecodeEncode(a);
    DecodeEncode(b);
  }
}

=== FILE: basics.dfy ===
/** Small shared vocabulary: bytes and an optional value. */
module Basics {

  /** One octet, as Python's `bytes` holds them. */
  type byte = x: int | 0 <= x < 256

  /** A value that may be missing, as Python's `None` or a present value. */
  datatype Option<+T> = None | Some(value: T)
}

=== FILE: cache.dfy ===
/**
 * The memoising layer of `gcloud_cache/cache.py`: the archive of a call is
 * built in a fresh byte stream, hashed from its position to the end, and
 * the digest names the object `cache/<digest>.zip` in the bucket. On a hit
 * the stored bytes are returned as they are; on a miss the function runs
 * and, if it returns, the rewound archive (without any result) is uploaded
 * under that name.
 *
 * The ZIP container encoding and MD5 are library routines; they enter the
 * model as the two functions of a `Library` value. The bucket is an
 * in-memory map from object names to bytes.
 */
module Cache {
  import opened Basics
  import opened Args
  import opened Archive
  import Streams

  /** The container encoder of `zipfile` and `hashlib.md5(...).hexdigest()`. */
  datatype Library = Library(zip: seq<Member> -> seq<byte>, md5: seq<byte> -> string)

  /** What the wrapped function does: return a value or raise an exception. */
  datatype Completion<R> = Returned(value: R) | Raised(error: string)

  /** What a call of the wrapped function gives its caller. */
  datatype Response<R> =
    | FromCache(archive: seq<byte>)  // the stored object, as downloaded
    | Fresh(value: R)                // the function's own result
    | Failed(error: string)          // the function's exception, propagated

  /** The bucket after a call, the response, and whether the function ran. */
  datatype Step<R> = Step(objects: map<string, seq<byte>>, response: Response<R>, invoked: bool)

  /**
   * The object name both lookup and upload use; the digest can be read
   * back from between its fixed prefix and suffix.
   */
  function CacheKey(hashKey: string): (name: string)
    ensures |name| == |hashKey| + 10
    ensures name[6..|name| - 4] == hashKey
  {
    "cache/" + hashKey + ".zip"
  }

  /** Different digests never share an object name. */
  lemma CacheKeyInjective(h1: string, h2: string)
    requires CacheKey(h1) == CacheKey(h2)
    ensures h1 == h2
  {
    AffixCancel("cache/", h1, h2, ".zip");
  }

  /** The bytes of the archive of a call, before any result is added. */
  function ArchiveBytes(lib: Library, source: string, args: seq<Value>, kwargs: Named, clock: nat -> Stamp): (archive: seq<byte>)
  {
    lib.zip(Stamped(Entries(source, args, kwargs), clock))
  }

  /** The object name a call is looked up and stored under. */
  function KeyOf(lib: Library, source: string, args: seq<Value>, kwargs: Named, clock: nat -> Stamp): (key: string)
  {
    CacheKey(lib.md5(ArchiveBytes(lib, source, args, kwargs, clock)))
  }

  /** The loop over positional arguments: one `arg_<i>.txt` entry each, in order. */
  method WriteArgEntries(zipFile: ZipWriter, source: string, args: seq<Value>, kwargs: Named, clock: nat -> Stamp)
    requires TextOnly(args) && NamedTextOnly(kwargs)
    requires zipFile.members == Stamped(Layout(source, args, kwargs), clock)[..1]
    modifies zipFile`members
    ensures zipFile.members == Stamped(Layout(source, args, kwargs), clock)[..1 + |args|]
  {
    ghost var ms := Stamped(Layout(source, args, kwargs), clock);
    for i := 0 to |args|
      invariant zipFile.members == ms[..1 + i]
    {
      zipFile.WriteStr(ArgName(i), Str(args[i]), clock(1 + i));
      LayoutArgAt(source, args, kwargs, i);
      assert ms[1 + i] == Member(Entry(ArgName(i), Str(args[i])), clock(1 + i));
      TakeOneMore(ms, 1 + i);
    }
  }

  /** The loop over named arguments: one `kwarg_<k>.txt` entry each, in iteration order. */
  method WriteKwargEntries(zipFile: ZipWriter, source: string, args: seq<Value>, kwargs: Named, clock: nat -> Stamp)
    requires TextOnly(args) && NamedTextOnly(kwargs)
    requires zipFile.members == Stamped(Layout(source, args, kwargs), clock)[..1 + |args|]
    modifies zipFile`members
    ensures zipFile.members == Stamped(Layout(source, args, kwargs), clock)
  {
    ghost var ms := Stamped(Layout(source, args, kwargs), clock);
    var n := |args|;
    for j := 0 to |kwargs|
      invariant zipFile.members == ms[..1 + n + j]
    {
      var k, v := kwargs[j].0, kwargs[j].1;
      zipFile.WriteStr(KwargName(k), Str(v), clock(1 + n + j));
      LayoutKwargAt(source, args, kwargs, j);
      assert ms[1 + n + j] == Member(Entry(KwargName(k), Str(v)), clock(1 + n + j));
      TakeOneMore(ms, 1 + n + j);
    }
    assert ms[..1 + n + |kwargs|] == ms;
  }

  /**
   * `serialize_args_to_zip`: normalise the arguments, write the entries in
   * order into a ZIP archive over a fresh stream, and rewind the stream.
   * `clock(k)` is the wall-clock reading at the k-th `writestr`.
   */
  method SerializeArgsToZip(source: string, args: seq<Value>, kwargs: Named,
                            clock: nat -> Stamp, zip: seq<Member> -> seq<byte>)
    returns (buffer: Streams.ByteStream)
    ensures fresh(buffer)
    ensures buffer.data == zip(Stamped(Entries(source, args, kwargs), clock))
    ensures buffer.pos == 0
  {
    var filtered := SerializeArgs(args, kwargs);
    var argsFiltered, kwargsFiltered := filtered.0, filtered.1;
    ghost var ms := Stamped(Layout(source, argsFiltered, kwargsFiltered), clock);
    buffer := new Streams.ByteStream();
    var zipFile := new ZipWriter(buffer);
    zipFile.WriteStr(FunctionCodeName, source, clock(0));
    LayoutFirst(source, argsFiltered, kwargsFiltered, clock);
    WriteArgEntries(zipFile, source, argsFiltered, kwargsFiltered, clock);
    WriteKwargEntries(zipFile, source, argsFiltered, kwargsFiltered, clock);
    zipFile.Close(zip);
    Streams.OverwriteEmpty(zip(ms));
    buffer.Seek(0);
  }

  /**
   * `get_hash_from_zip`: the digest of the bytes from the stream's position
   * to its end; afterwards the stream is rewound and its contents are
   * untouched.
   */
  method GetHashFromZip(buffer: Streams.ByteStream, md5: seq<byte> -> string) returns (hashKey: string)
    modifies buffer
    ensures hashKey == md5(old(buffer.Remaining()))
    ensures buffer.data == old(buffer.data) && buffer.pos == 0
  {
    var content := buffer.Read();
    hashKey := md5(content);
    buffer.Seek(0);
  }

  /** The bucket: object names to the bytes stored under them. */
  class CacheStore {
    var objects: map<string, seq<byte>>

    constructor (objects: map<string, seq<byte>>)
      ensures this.objects == objects
    {
      this.objects := objects;
    }

    /** `get_cached_response`: the stored bytes when the object exists, otherwise None. */
    method GetCachedResponse(hashKey: string) returns (r: Option<seq<byte>>)
      ensures r.Some? <==> CacheKey(hashKey) in objects
      ensures r.Some? ==> r.value == objects[CacheKey(hashKey)]
    {
      var key := CacheKey(hashKey);
      if key in objects {
        r := Some(objects[key]);
      } else {
        r := None;
      }
    }

    /**
     * `save_to_cache`: uploads what a read of the stream returns, that is
     * the bytes from its position to the end, under the object name of
     * `hashKey`, replacing any object of that name.
     */
    method SaveToCache(hashKey: string, buffer: Streams.ByteStream)
      modifies this, buffer
      ensures objects == old(objects)[CacheKey(hashKey) := old(buffer.Remaining())]
      ensures buffer.data == old(buffer.data)
      ensures buffer.pos == if old(buffer.pos) <= |buffer.data| then |buffer.data| else old(buffer.pos)
    {
      var content := buffer.Read();
      objects := objects[CacheKey(hashKey) := content];
    }
  }

  /**
   * One call of the wrapped function against the bucket `objects`: the
   * state machine of `sync_wrapper`. No object already in the bucket is
   * ever replaced, and the function runs exactly when the response does
   * not come from the bucket.
   */
  function CallStep<R>(objects: map<string, seq<byte>>, lib: Library, source: string,
                       func: (seq<Value>, Named) -> Completion<R>,
                       args: seq<Value>, kwargs: Named, clock: nat -> Stamp): (r: Step<R>)
    ensures forall k :: k in objects ==> k in r.objects && r.objects[k] == objects[k]
    ensures r.invoked <==> !r.response.FromCache?
  {
    var archive := ArchiveBytes(lib, source, args, kwargs, clock);
    var key := CacheKey(lib.md5(archive));
    if key in objects then Step(objects, FromCache(objects[key]), false)
    else
      match func(args, kwargs)
      case Returned(v) => Step(objects[key := archive], Fresh(v), true)
      case Raised(e) => Step(objects, Failed(e), true)
  }

  /** `cache_result(func)`: the decorated function, closing over the bucket. */
  class CachedFunction<R> {
    const source: string
    const func: (seq<Value>, Named) -> Completion<R>
    const lib: Library
    const store: CacheStore
    /** The argument lists the wrapped function has been run with, in order. */
    ghost var calls: seq<(seq<Value>, Named)>

    constructor (source: string, func: (seq<Value>, Named) -> Completion<R>, lib: Library, store: CacheStore)
      ensures this.source == source && this.func == func && this.lib == lib && this.store == store
      ensures calls == []
    {
      this.source := source;
      this.func := func;
      this.lib := lib;
      this.store := store;
      calls := [];
    }

    /** `sync_wrapper(*args, **kwargs)`. */
    method Call(args: seq<Value>, kwargs: Named, clock: nat -> Stamp) returns (response: Response<R>)
      modifies this, store
      ensures var step := CallStep(old(store.objects), lib, source, func, args, kwargs, clock);
        && store.objects == step.objects
        && response == step.response
        && calls == old(calls) + (if step.invoked then [(args, kwargs)] else [])
    {
      var zipBuffer := SerializeArgsToZip(source, args, kwargs, clock, lib.zip);
      var hashKey := GetHashFromZip(zipBuffer, lib.md5);
      var cached := store.GetCachedResponse(hashKey);
      if cached.Some? {
        response := FromCache(cached.value);
        return;
      }
      var result := func(args, kwargs);
      calls := calls + [(args, kwargs)];
      match result
      case Raised(e) =>
        response := Failed(e);
      case Returned(v) =>
        store.SaveToCache(hashKey, zipBuffer);
        response := Fresh(v);
    }
  }
}

=== FILE: cache_properties.dfy ===
/**
 * What the memoising layer guarantees across calls: how the object name
 * follows from the call, what a hit and a miss do to the bucket, the
 * content-addressing the bucket keeps, and what a repeated call returns.
 */
module CacheProperties {
  import opened Basics
  import opened Args
  import opened Archive
  import opened Cache
  import Base64

  /**
   * A hit happens exactly when the call's object name is in the bucket; it
   * returns the stored bytes, runs nothing and changes nothing. A miss runs
   * the function.
   */
  lemma HitIffPresent<R>(objects: map<string, seq<byte>>, lib: Library, source: string,
                         func: (seq<Value>, Named) -> Completion<R>,
                         args: seq<Value>, kwargs: Named, clock: nat -> Stamp)
    ensures var key := KeyOf(lib, source, args, kwargs, clock);
      var r := CallStep(objects, lib, source, func, args, kwargs, clock);
      && (r.response.FromCache? <==> key in objects)
      && (r.invoked <==> key !in objects)
      && (key in objects ==> r.response.archive == objects[key] && r.objects == objects)
  {
  }

  /**
   * On a miss where the function returns, the caller gets the function's
   * own result and the bucket holds, under the call's name, exactly the
   * bytes that were hashed to make that name.
   */
  lemma MissStoresHashedArchive<R>(objects: map<string, seq<byte>>, lib: Library, source: string,
                                   func: (seq<Value>, Named) -> Completion<R>,
                                   args: seq<Value>, kwargs: Named, clock: nat -> Stamp)
    requires KeyOf(lib, source, args, kwargs, clock) !in objects
    requires func(args, kwargs).Returned?
    ensures var key := KeyOf(lib, source, args, kwargs, clock);
      var r := CallStep(objects, lib, source, func, args, kwargs, clock);
      && r.response == Fresh(func(args, kwargs).value)
      && key in r.objects
      && r.objects[key] == ArchiveBytes(lib, source, args, kwargs, clock)
      && CacheKey(lib.md5(r.objects[key])) == key
  {
  }

  /**
   * A call touches at most its own object name: every other name keeps its
   * bytes, no object disappears, and a call whose function raises leaves the
   * bucket as it was.
   */
  lemma NothingElseChanges<R>(objects: map<string, seq<byte>>, lib: Library, source: string,
                              func: (seq<Value>, Named) -> Completion<R>,
                              args: seq<Value>, kwargs: Named, clock: nat -> Stamp)
    ensures var key := KeyOf(lib, source, args, kwargs, clock);
      var r := CallStep(objects, lib, source, func, args, kwargs, clock);
      && objects.Keys <= r.objects.Keys
      && r.objects.Keys <= objects.Keys + {key}
      && (forall k :: k in objects && k != key ==> r.objects[k] == objects[k])
      && (func(args, kwargs).Raised? ==> r.objects == objects)
  {
  }

  /** Every object sits under the name its own bytes hash to. */
  predicate ContentAddressed(objects: map<string, seq<byte>>, md5: seq<byte> -> string)
  {
    forall k :: k in objects ==> k == CacheKey(md5(objects[k]))
  }

  /** Calls keep a content-addressed bucket content-addressed. */
  lemma CallKeepsContentAddressed<R>(objects: map<string, seq<byte>>, lib: Library, source: string,
                                     func: (seq<Value>, Named) -> Completion<R>,
                                     args: seq<Value>, kwargs: Named, clock: nat -> Stamp)
    requires ContentAddressed(objects, lib.md5)
    ensures ContentAddressed(CallStep(objects, lib, source, func, args, kwargs, clock).objects, lib.md5)
  {
  }

  /**
   * In a content-addressed bucket, what a hit returns is an archive with
   * the same digest as the archive of the current call.
   */
  lemma HitDigestMatches<R>(objects: map<string, seq<byte>>, lib: Library, source: string,
                            func: (seq<Value>, Named) -> Completion<R>,
                            args: seq<Value>, kwargs: Named, clock: nat -> Stamp)
    requires ContentAddressed(objects, lib.md5)
    requires CallStep(objects, lib, source, func, args, kwargs, clock).response.FromCache?
    ensures var r := CallStep(objects, lib, source, func, args, kwargs, clock);
      lib.md5(r.response.archive) == lib.md5(ArchiveBytes(lib, source, args, kwargs, clock))
  {
    var key := KeyOf(lib, source, args, kwargs, clock);
    assert key in objects;
    CacheKeyInjective(lib.md5(objects[key]), lib.md5(ArchiveBytes(lib, source, args, kwargs, clock)));
  }

  /** Stamping depends on the clock only through the readings actually taken. */
  lemma StampedSameReadings(entries: seq<Entry>, clock1: nat -> Stamp, clock2: nat -> Stamp)
    requires SameReadings(clock1, clock2, |entries|)
    ensures Stamped(entries, clock1) == Stamped(entries, clock2)
  {
    var m1, m2 := Stamped(entries, clock1), Stamped(entries, clock2);
    assert forall k :: 0 <= k < |entries| ==> m1[k] == m2[k];
  }

  /**
   * Determinism: calls with the same entry list, whose writes read the same
   * clock values, produce the same archive bytes and the same object name.
   */
  lemma SameEntriesSameKey(lib: Library, source1: string, args1: seq<Value>, kwargs1: Named, clock1: nat -> Stamp,
                           source2: string, args2: seq<Value>, kwargs2: Named, clock2: nat -> Stamp)
    requires Entries(source1, args1, kwargs1) == Entries(source2, args2, kwargs2)
    requires SameReadings(clock1, clock2, |Entries(source1, args1, kwargs1)|)
    ensures ArchiveBytes(lib, source1, args1, kwargs1, clock1) == ArchiveBytes(lib, source2, args2, kwargs2, clock2)
    ensures KeyOf(lib, source1, args1, kwargs1, clock1) == KeyOf(lib, source2, args2, kwargs2, clock2)
  {
    StampedSameReadings(Entries(source1, args1, kwargs1), clock1, clock2);
  }

  /**
   * Repeating a call whose function returned, with the same clock readings,
   * is served from the bucket without running the function, and it returns
   * the stored archive: after a miss, that is the archive of the arguments,
   * not the value the first call returned.
   */
  lemma RepeatCallServedFromCache<R>(objects: map<string, seq<byte>>, lib: Library, source: string,
                                     func: (seq<Value>, Named) -> Completion<R>,
                                     args: seq<Value>, kwargs: Named,
                                     clock1: nat -> Stamp, clock2: nat -> Stamp)
    requires func(args, kwargs).Returned?
    requires SameReadings(clock1, clock2, 1 + |args| + |kwargs|)
    ensures var key := KeyOf(lib, source, args, kwargs, clock1);
      var r1 := CallStep(objects, lib, source, func, args, kwargs, clock1);
      var r2 := CallStep(r1.objects, lib, source, func, args, kwargs, clock2);
      && key in r1.objects
      && !r2.invoked
      && r2.objects == r1.objects
      && r2.response == FromCache(r1.objects[key])
      && (r1.invoked ==> r2.response == FromCache(ArchiveBytes(lib, source, args, kwargs, clock1)))
  {
    LayoutShape(source, args, kwargs);
    SameEntriesSameKey(lib, source, args, kwargs, clock1, source, args, kwargs, clock2);
  }

  /**
   * Named arguments are archived in iteration order, not sorted: passing the
   * same two named arguments in the other order changes the entry list.
   */
  lemma NamedOrderMatters(source: string, k1: string, v1: Value, k2: string, v2: Value)
    requires k1 != k2
    ensures Entries(source, [], [(k1, v1), (k2, v2)]) != Entries(source, [], [(k2, v2), (k1, v1)])
  {
    LayoutShape(source, [], [(k1, v1), (k2, v2)]);
    LayoutShape(source, [], [(k2, v2), (k1, v1)]);
    if KwargName(k1) == KwargName(k2) {
      KwargNameInjective(k1, k2);
    }
  }

  lemma FirstBlobText()
    ensures Base64.Encode([0, 1, 2, 3]) == "AAECAw=="
  {
    Base64.EncodeFirstGroup([0, 1, 2, 3]);
    assert [0, 1, 2, 3][3..] == [3];
    assert Base64.Quad(0, 1, 2) == [Base64.Char(0), Base64.Char(0), Base64.Char(4), Base64.Char(2)] == "AAEC";
    assert Base64.Encode([3]) == [Base64.Char(0), Base64.Char(48), '=', '='] == "Aw==";
  }

  lemma SecondBlobText()
    ensures Base64.Encode([3, 2, 1, 0]) == "AwIBAA=="
  {
    Base64.EncodeFirstGroup([3, 2, 1, 0]);
    assert [3, 2, 1, 0][3..] == [0];
    assert Base64.Quad(3, 2, 1) == [Base64.Char(0), Base64.Char(48), Base64.Char(8), Base64.Char(1)] == "AwIB";
    assert Base64.Encode([0]) == [Base64.Char(0), Base64.Char(0), '=', '='] == "AA==";
  }

  /** The Base64 texts of the two blobs the tests compare. */
  lemma BlobTexts()
    ensures Base64.Encode([0, 1, 2, 3]) == "AAECAw=="
    ensures Base64.Encode([3, 2, 1, 0]) == "AwIBAA=="
  {
    FirstBlobText();
    SecondBlobText();
  }

  /** The blobs `00 01 02 03` and `03 02 01 00` give different entry lists. */
  lemma TestBlobsDiffer(source: string)
    ensures Entries(source, [Bytes([0, 1, 2, 3])], []) != Entries(source, [Bytes([3, 2, 1, 0])], [])
  {
    DifferentBytesDifferentEntries(source, [Bytes([0, 1, 2, 3])], [Bytes([3, 2, 1, 0])], [], 0);
  }

  /**
   * The entry text does not record an argument's type: the blob `00 01 02 03`
   * and the string "AAECAw==" get the same object name, and so do the
   * integer 1 and the string "1".
   */
  lemma TypeNotRecorded(lib: Library, source: string, clock: nat -> Stamp)
    ensures KeyOf(lib, source, [Bytes([0, 1, 2, 3])], [], clock) == KeyOf(lib, source, [Text("AAECAw==")], [], clock)
    ensures KeyOf(lib, source, [Int(1)], [], clock) == KeyOf(lib, source, [Text("1")], [], clock)
  {
    FirstBlobText();
    assert Entries(source, [Bytes([0, 1, 2, 3])], []) == Entries(source, [Text("AAECAw==")], []);
    assert Entries(source, [Int(1)], []) == Entries(source, [Text("1")], []);
  }
}

=== FILE: decimal.dfy ===
/**
 * Decimal text of integers, as Python's `str` renders an `int` and as the
 * f-string `f'arg_{i}.txt'` renders an argument index. Reading the digits
 * back is the partner that makes the rendering injective.
 */
module Decimal {

  function Digit(d: nat): (c: char)
    requires d < 10
  {
    ('0' as int + d) as char
  }

  predicate IsDigit(c: char)
  {
    '0' <= c <= '9'
  }

  /** Digits of `n`, most significant first, with no leading zero. */
  function NatText(n: nat): (s: string)
    ensures 1 <= |s|
    ensures forall i :: 0 <= i < |s| ==> IsDigit(s[i])
    ensures |s| > 1 ==> s[0] != '0'
    decreases n
  {
    if n < 10 then [Digit(n)] else NatText(n / 10) + [Digit(n % 10)]
  }

  /** The number a string of digits denotes. */
  function Value(s: string): (n: nat)
    requires forall i :: 0 <= i < |s| ==> IsDigit(s[i])
    decreases |s|
  {
    if s == [] then 0
    else
      var last := s[|s| - 1] as int - '0' as int;
      assert IsDigit(s[|s| - 1]);
      Value(s[..|s| - 1]) * 10 + last
  }

  /** Reading the rendered digits back gives the number. */
  lemma {:induction false} ValueOfNatText(n: nat)
    ensures Value(NatText(n)) == n
    decreases n
  {
    var s := NatText(n);
    if n >= 10 {
      ValueOfNatText(n / 10);
      assert s[..|s| - 1] == NatText(n / 10);
    }
  }

  /** Different numbers have different decimal texts. */
  lemma NatTextInjective(m: nat, n: nat)
    requires NatText(m) == NatText(n)
    ensures m == n
  {
    ValueOfNatText(m);
    ValueOfNatText(n);
  }

  /** `str(i)` for a Python `int`: a minus sign in front of a negative number. */
  function IntText(i: int): (s: string)
    ensures 1 <= |s|
    ensures s[0] == '-' <==> i < 0
    ensures forall k :: (if i < 0 then 1 else 0) <= k < |s| ==> IsDigit(s[k])
    ensures Value(s[if i < 0 then 1 else 0..]) == if i < 0 then -i else i
  {
    ValueOfNatText(if i < 0 then -i else i);
    var t := if i < 0 then "-" + NatText(-i) else NatText(i);
    assert t[if i < 0 then 1 else 0..] == NatText(if i < 0 then -i else i);
    t
  }

  /** Different integers have different texts. */
  lemma IntTextInjective(i: int, j: int)
    requires IntText(i) == IntText(j)
    ensures i == j
  {
    var s := IntText(i);
    if i < 0 {
      assert s[1..] == NatText(-i) == NatText(-j);
      NatTextInjective(-i, -j);
    } else {
      NatTextInjective(i, j);
    }
  }
}

=== FILE: streams.dfy ===
/**
 * An in-memory byte stream in the manner of Python's `io.BytesIO`: a byte
 * sequence and a current position. Reading takes everything from the
 * position to the end; writing overwrites from the position on; seeking
 * may move the position past the end, where reads find nothing.
 */
module Streams {
  import opened Basics

  /** `d` extended with zero bytes up to length `n`, as a write past the end does. */
  function PadTo(d: seq<byte>, n: nat): (r: seq<byte>)
    ensures |r| == if n <= |d| then |d| else n
    ensures r[..|d|] == d
    ensures forall k :: |d| <= k < n ==> r[k] == 0
  {
    if n <= |d| then d else d + seq(n - |d|, _ => 0)
  }

  /**
   * The contents after writing `b` at position `p`. An empty write changes
   * nothing; a write past the end first fills the gap with zero bytes.
   */
  function Overwrite(d: seq<byte>, p: nat, b: seq<byte>): (r: seq<byte>)
    ensures |b| == 0 ==> r == d
    ensures |b| > 0 ==> |r| == if p + |b| <= |d| then |d| else p + |b|
    ensures |b| > 0 ==> r[p..p + |b|] == b
    ensures p <= |d| ==> r[..p] == d[..p]
    ensures |b| > 0 && |d| < p ==> r[..|d|] == d && forall k :: |d| <= k < p ==> r[k] == 0
    ensures p + |b| <= |d| ==> r[p + |b|..] == d[p + |b|..]
  {
    if |b| == 0 then d
    else
      var padded := PadTo(d, p);
      padded[..p] + b + (if p + |b| <= |padded| then padded[p + |b|..] else [])
  }

  /** Writing into an empty stream at its start leaves exactly what was written. */
  lemma OverwriteEmpty(b: seq<byte>)
    ensures Overwrite([], 0, b) == b
  {
  }

  class ByteStream {
    var data: seq<byte>
    var pos: nat

    /** `io.BytesIO()`: empty, positioned at the start. */
    constructor ()
      ensures data == [] && pos == 0
    {
      data := [];
      pos := 0;
    }

    /** What a read from the current position returns. */
    function Remaining(): (r: seq<byte>)
      reads this
      ensures pos <= |data| ==> data == data[..pos] + r
      ensures pos >= |data| ==> r == []
    {
      if pos <= |data| then data[pos..] else []
    }

    /** `read()`: everything from the position to the end; the position moves to the end. */
    method Read() returns (b: seq<byte>)
      modifies this`pos
      ensures b == old(Remaining())
      ensures pos == if old(pos) <= |data| then |data| else old(pos)
    {
      b := Remaining();
      if pos <= |data| {
        pos := |data|;
      }
    }

    /** `seek(offset)`: moves the position, the contents stay. */
    method Seek(offset: nat)
      modifies this`pos
      ensures pos == offset
    {
      pos := offset;
    }

    /**
     * `write(b)`: overwrites from the position on and moves past what was
     * written; writing nothing changes nothing.
     */
    method Write(b: seq<byte>)
      modifies this
      ensures data == Overwrite(old(data), old(pos), b)
      ensures pos == old(pos) + |b|
    {
      data := Overwrite(data, pos, b);
      pos := pos + |b|;
    }
  }
}
